=== FILE: README.md ===
# Workout journal core, modelled in Dafny

This project models the workout-journal logic of the fitness-coaching
backend's API views (`pt_app/views.py`). The database rows are immutable
values in maps keyed by id. Each view is a pure function from a store to a
`Result`. The covered views are:

- recording a set on an exercise log, and deleting the last one
  (`ExerciseSetCreateAPIView`, `DeleteLastExerciseSetAPIView`);
- the session lifecycle: the guard of `StartWorkoutSessionView`, the
  `check_active_session` read and `EndWorkoutSession`;
- the user's program progress: `ActiveProgramView` and
  `SetInactiveProgramView`;
- the analytics folds: weekly session buckets
  (`WorkoutSessionsLast3MonthsView.process_sessions_by_week`), the best
  estimated one-rep max per day (`Exercise1RMView.prepare_chart_data`) and
  the seven-day tonnage (`CumulativeWeightView`);
- the weekly quota on AI generations (`OpenAIView`, `OpenAIProgramView`,
  `AIProgramLimitView`, `AIWorkoutLimitView`).

Errors follow the HTTP status the code returns. `NotFound` is a 404 and
`BadRequest` is a 400. `ServerError` is a 500: an exception no view
catches, which Django turns into a 500, or one the AI generation views
catch and answer with an explicit 500.

Files, leaves first:

| file | module | contents |
|---|---|---|
| `wrappers.dfy` | `Wrappers` | `Option` and `Result` |
| `journal.dfy` | `Journal` | the rows, the store, the `.get()` / `.first()` helpers, the table invariants (`Valid`) |
| `execution_log.dfy` | `ExecutionLog` | append set, delete last set |
| `sessions.dfy` | `Sessions` | start guard, active-session read, end session |
| `program_progress.dfy` | `ProgramProgressViews` | active program, deactivate |
| `ordered_dicts.dfy` | `OrderedDicts` | insertion-ordered dictionaries as the analytics build them |
| `weekly_sessions.dfy` | `WeeklySessions` | weekly session buckets |
| `one_rep_max.dfy` | `OneRepMax` | the best estimate per day |
| `cumulative_weight.dfy` | `CumulativeWeight` | seven-day tonnage |
| `ai_quota.dfy` | `AiQuota` | Sunday-to-Saturday week and the quota of 3 |

Modelling choices:

- A log keeps its sets as a sequence in creation order. The store invariant
  `LogConsistent` says the numbers run 1..n without gaps in that order and
  that `sets_completed` equals n. The append view's `.last()` is read as the
  last set created and the delete view's `order_by('set_number').last()` as
  the highest-numbered set. Under `LogConsistent` both are the final element
  of the sequence. This rests on two assumptions listed under "Left out".
- `.get()` on a query is `Journal.GetOne`. No matching row is a 404 when the
  view catches `DoesNotExist`. Several rows raise `MultipleObjectsReturned`,
  which no view catches, so they are a `ServerError`.
- `.first()` on a query without `order_by` is read as the lowest id.
- `Journal.Valid` includes the foreign key from a progress row to its
  program: the program exists, and program ids are positive as the
  database's auto-incremented keys are.
- Dates are integer day numbers. The `'%Y-%U'` week key of the weekly chart
  is a function parameter `weekOf`. The seven-day and AI-quota windows are
  computed from day numbers, with day 0 = 1970-01-01 (a Thursday) and
  Python's weekday numbering (Monday 0, Sunday 6).
- A one-rep-max estimate is an integer. It stands for the Epley value
  rounded to one decimal, in tenths.
- Weights and reps are integers.

Behaviour of the views worth knowing:

- Appending to a missing log is a `ServerError`: the view calls
  `ExerciseLog.objects.get` outside any `try`.
- Deactivating an inactive program, a blocked start and ending a completed
  session are 400 responses.
- The start guard does not keep a user to one running session. It only
  looks at sessions under progress rows with `is_active` set, while
  `check_active_session` does not filter on `is_active`. A session left
  running under a deactivated program is therefore reported as active, yet
  a user who now follows another program passes the start guard
  (`Sessions.InactiveProgramSessionDoesNotBlock`). Whether the session is
  then created depends on `start_workout_session`, which is not part of
  this model.
- `EndWorkoutSession` does not check who owns the session, so
  `Sessions.EndSession` takes no user.

## Model

| member | source | states |
|---|---|---|
| Journal.GetOne | pt_app/views.py:459-460 | `.get()` succeeds exactly when one row matches and returns that row. No row is `NotFound`. Several rows are `ServerError`. |
| Journal.LeastId | pt_app/views.py:529-533 | `.first()` returns a member of the query that is no larger than any other member. |
| ExecutionLog.MaxSetNumber | pt_app/views.py:328 | The highest set number of a log bounds every set's number and is attained by some set, or is 0. |
| ExecutionLog.AppendSet | pt_app/views.py:290-311 | Succeeds exactly when the log exists; a missing log is an uncaught exception. The new set gets the last set's number plus 1, or 1 on an empty log, and carries the request's reps and weight. The set is appended, `sets_completed` grows by 1, and nothing else in the store changes. |
| ExecutionLog.NextNumberFollowsMax | pt_app/views.py:293-298 | In a gap-free log the next number is one past the highest and one past the count, so it is above every number the log holds now. |
| ExecutionLog.NextSetNumber | pt_app/views.py:292-298 | In a gap-free log the next set number is the set count plus 1. |
| ExecutionLog.AppendKeepsLogConsistent | pt_app/views.py:293-311 | Appending keeps every log gap-free with `sets_completed` equal to its set count. The new number is the old count plus 1, and the earlier sets are unchanged. |
| ExecutionLog.DeleteLastSet | pt_app/views.py:319-341 | A missing log is a 404 and a missing plan row is an exception. No sets is a 404. A set count not above the plan's `sets` is a 400. Otherwise exactly the last set goes and `sets_completed` becomes `max(0, old - 1)`. Every failure leaves the store untouched. |
| ExecutionLog.DeleteRemovesHighest | pt_app/views.py:328-336 | A successful delete keeps the log invariants and removes exactly the set with the highest number. Every remaining set keeps its position and value. |
| ExecutionLog.DeleteUndoesAppend | pt_app/views.py:290-336 | Deleting right after an append restores the whole store, provided the log already met its plan before the append. |
| ExecutionLog.AppendRedoesDelete | pt_app/views.py:290-336 | Re-appending the deleted set's reps and weight restores the store exactly, and the freed number is handed out again. |
| Sessions.StartGuard | pt_app/views.py:512-517 | A start is refused with a 400 exactly when some session of the user is `active` under a progress row with `is_active` set. |
| Sessions.CheckActiveSession | pt_app/views.py:529-541 | Reports a session exactly when the user has one that is `active` and not `completed`, whatever its program's state. The session reported is the lowest-id one. |
| Sessions.EndSession | pt_app/views.py:548-557 | A missing id is a 404 and a completed session is a 400. Otherwise only that session changes, to `completed` and not `active`. |
| Sessions.EndTwiceRefused | pt_app/views.py:549-555 | Ending the same session a second time is refused with a 400. |
| Sessions.EndKeepsValid | pt_app/views.py:549-553 | Ending keeps the store invariants. Afterwards the ended session is neither reported as open nor blocks a start. |
| Sessions.EndOnlyReleases | pt_app/views.py:549-553 | Every session that blocks a start after an end blocked it before, and it is not the ended session. |
| Sessions.EndingTheBlockerUnblocks | pt_app/views.py:512-517 | When a single session blocks the user, ending it lets the start guard pass. |
| Sessions.RefusedStartIsVisible | pt_app/views.py:529-533 | When sessions are never both active and completed, a refused start implies `check_active_session` reports a session. |
| Sessions.InactiveProgramSessionDoesNotBlock | pt_app/views.py:529-533 | The converse fails: a concrete valid store where the user's active program is another one, a session is reported as active, and the start guard still passes. |
| ProgramProgressViews.ActiveProgram | pt_app/views.py:496-503 | Gives a 404 exactly when the user has no active progress row and a server error exactly when there are several. Otherwise it returns the program of an active row. |
| ProgramProgressViews.Deactivate | pt_app/views.py:452-473 | An absent or zero program id is a 400 and an unknown program is a 404. Success happens exactly when the user has exactly one row for the program and that row is active. Success flips only that row's `is_active`. |
| ProgramProgressViews.DeactivateRefusals | pt_app/views.py:459-473 | No progress row for the user and program is a 404. With one row per user and program, a row that is already inactive is a 400. Several rows for the pair are an uncaught `MultipleObjectsReturned` (500). |
| ProgramProgressViews.DeactivateFlipsOneRow | pt_app/views.py:463-466 | A deactivation keeps the store invariants. It flips exactly the matching row from active to inactive. Every other row, session, log and program is unchanged. |
| ProgramProgressViews.DeactivateClearsActiveProgram | pt_app/views.py:463-469 | After a deactivation the user has no active program (404), and deactivating the same program again is a 400. |
| ProgramProgressViews.ActiveProgramCanBeDeactivated | pt_app/views.py:459-466 | In a valid store, the program reported as active can be deactivated. |
| OrderedDicts.Put | pt_app/views.py:849-854 | Assigning a present key overwrites it in place and keeps the key order. A new key is appended. Distinct keys stay distinct. |
| OrderedDicts.DedupSnoc | pt_app/views.py:849-854 | Keys assigned in sequence keep the order of first assignment. A repeated key adds nothing, and a new key goes last. |
| WeeklySessions.WeekSteps | pt_app/views.py:846-850 | The loop visits `start`, `start + 7`, ... while not past `end`: `(end - start) / 7 + 1` days, or none if `start > end`. |
| WeeklySessions.EmptyBuckets | pt_app/views.py:845-854 | Before counting, the buckets have distinct keys and are all zero. The keys are the week keys of the visited days followed by the end week, each once, in first-generated order. |
| WeeklySessions.EmptyBucketsCover | pt_app/views.py:847-854 | The end week and the week of every visited day are buckets. |
| WeeklySessions.Bump | pt_app/views.py:857-859 | A session raises its own week's bucket by 1 when that bucket exists. Otherwise nothing changes, and the keys never change. |
| WeeklySessions.CountInto | pt_app/views.py:856-859 | On buckets with distinct keys, counting adds to each bucket the number of sessions in its week and keeps the keys and their order. |
| WeeklySessions.WeeklySessionCounts | pt_app/views.py:844-863 | The chart's keys are distinct: the generated weeks in first-generated order. Each count equals the number of sessions in that week. |
| WeeklySessions.CountedTotal | pt_app/views.py:856-859 | Counting into zero buckets makes them add up to the number of sessions whose week is a bucket, at most the number of sessions. |
| WeeklySessions.WeeklyTotalAtMostSessions | pt_app/views.py:856-859 | The counts add up to the number of sessions whose week is a bucket, which is at most the number of sessions. |
| OneRepMax.Keep | pt_app/views.py:893-894 | An estimate for a new day is appended. Otherwise it replaces its day's value only when strictly larger. Keys stay distinct and in place. |
| OneRepMax.BestPerDay | pt_app/views.py:884-897 | The chart has one point per distinct day, in the order the days first occur. |
| OneRepMax.KeepKeepsDayMaxima | pt_app/views.py:893-894 | One turn of the loop keeps every point the largest estimate of its day. |
| OneRepMax.ChartPointsAreDayMaxima | pt_app/views.py:886-894 | Each point's value is an estimate of that day and no estimate of that day is larger. |
| OneRepMax.ChartDaysAscending | pt_app/views.py:873-877 | With sets ordered by session date, the chart's days are strictly increasing. |
| CumulativeWeight.CumulativeWeights | pt_app/views.py:924-947 | Exactly 7 points for the days `today - 6` to `today`, in order. Each is that day's sum of `weight_used * reps` over the sets where both are present and non-zero. |
| CumulativeWeight.IdleDayIsZero | pt_app/views.py:934 | A day with no counted set stays at its zero start. |
| CumulativeWeight.ChartSnoc | pt_app/views.py:938-942 | One more set changes only the point of its own day, by its tonnage, and only when it counts and lies in the window. |
| CumulativeWeight.ChartTotalIsWindowTonnage | pt_app/views.py:928-942 | The 7 points add up to the tonnage of all counted sets in the window. None is lost and none from outside the window is added. |
| AiQuota.WeekStart | pt_app/views.py:619-623 | Going back `(weekday + 1) % 7` days lands on a Sunday at most 6 days back, with no Sunday in between: the most recent Sunday. |
| AiQuota.StepBackToSunday | pt_app/views.py:622 | The step back lands on a Sunday, at most six days back, passing no other Sunday. |
| AiQuota.SameWeekSameStart | pt_app/views.py:620-627 | Every day from a week's Sunday to its Saturday has the same week start. |
| AiQuota.WeekCountSameWeek | pt_app/views.py:629-634 | The week's count is the same from any day of that week. |
| AiQuota.WeekCount | pt_app/views.py:619-634 | The count is the number of creation days from the week's Sunday to its Saturday, both included, and so at most the number of generations. |
| AiQuota.CheckQuota | pt_app/views.py:636-637 | Generation passes exactly when the week's count is below 3. Otherwise it is a 400. |
| AiQuota.Generate | pt_app/views.py:612-674 | A missing prompt, or a missing or zero program id for a workout, is a 400, and so is a request over the week's quota; neither records anything. Past the quota, a serializer rejection is a 400 and an exception a 500; no other error class occurs. Success happens exactly when the inputs are present, the week's count is below 3 and the reply is saved. A creation today is recorded exactly when the item was saved, including a save followed by an exception and a 500. |
| AiQuota.QuotaNeverExceeded | pt_app/views.py:629-674 | Every request that records a creation, a granted one or one that fails after the save, raises the week's count by one and lowers the remaining quota by one. Starting within the limit, the count stays at most 3 whatever the request's outcome. |
| AiQuota.Remaining | pt_app/views.py:770 | `remaining` is positive exactly when a generation would pass the quota, never above 3, and negative once the count exceeds 3. |

## Left out

- `SetActiveProgramView`, `CreateAndActivateProgramView` and the body of
  session creation: they call `set_or_update_user_program_progress` and
  `start_workout_session` from `pt_app/utils`, which is not part of this
  model. Only the start guard is modelled.
- `Sessions.StartGuard` does not model the `except Exception` that turns an
  error in session creation into a 400, because session creation is not
  modelled.
- The OpenAI calls, JSON parsing and serializer validation of the generation
  views are the single parameter `reply` of `AiQuota.Generate`: saved,
  rejected by the serializer, raising inside the view's `try` before the
  save, or raising after it. The last covers `serializer.data` and the
  program generator's follow-up call to `set_or_update_user_program_progress`.
  What that call does to the user's progress rows is not modelled.
- Token issuance, registration, chat and messages, video and profile-picture
  upload, the generic model viewsets, `ExercisesWithWeightsView`,
  `ExerciseSetHistoryView` and `ExerciseLogCreationAPI`: these are I/O or
  CRUD plumbing outside the journal's state rules.
- The trainer/client copies of the analytics views (`views.py:965-1105`):
  their folds are the same as the ones modelled; only the authorization
  check in front differs.
- The Epley formula `weight * (1 + reps / 30.0)` and its rounding: this is
  floating point. `OneRepMax` takes each set's estimate as a given integer
  and proves facts about the max-per-day fold only.
- `strftime('%Y-%U')`, `strftime('%Y-%m-%d')`, `now()` and time zones: week
  keys come from a function parameter and days are day numbers. The model
  assumes that the sessions query's date filter and the view's own date
  keys agree on a session's day. If they disagreed, the tonnage view could
  raise a `KeyError`.
- The ORM queries that produce the analytics inputs (date-range filters,
  `exclude(... isnull=True)`, ordering by date) are the callers' job. The
  inputs are sequences already in query order. `CumulativeWeight` still
  applies the window itself.
- `CumulativeWeight.CumulativeWeights`, `OneRepMax.BestPerDay`: weights are
  integers, not the model field's floating-point values.
- `AiQuota.WeekCount` counts creation days in the Sunday-to-Saturday
  window; the per-user and `is_ai_generated` filters are assumed applied to
  its input.
- Transactions and concurrency: each transition is a single atomic step.
  Two concurrent appends could, in the view, hand out the same set number.
- Sets are assumed to be created only by the append view, so their primary
  key order is their `set_number` order and the final element of a log's
  sequence is both `.last()` (`views.py:294`) and the highest number.
- The models are assumed to have no default `Meta.ordering`, so `.last()`
  at `views.py:294` and `.first()` at `views.py:533` follow the primary
  key. `pt_app/models.py` is not part of this model.
- `ExerciseSetViewSet` and `ExerciseLogViewSet` (`views.py:571-585`) can
  rewrite `set_number` and `sets_completed` freely. `LogConsistent` holds
  only across the views modelled here.
- Serializer output (response bodies) is not modelled. Only the resulting
  store, the chosen row or the error class is.

=== FILE: ai_quota.dfy ===
/**
 The weekly quota on AI-generated workouts and programs (OpenAIView,
 OpenAIProgramView, AIProgramLimitView, AIWorkoutLimitView). Dates are day
 numbers counted from 1970-01-01, a Thursday; weekdays are numbered as
 Python's `date.weekday()` does, Monday 0 to Sunday 6.
 */
module AiQuota {
  import opened Wrappers
  import opened Journal

  /** Generations allowed per Sunday-to-Saturday week. */
  const WeeklyLimit: nat := 3

  const Sunday: nat := 6

  /** `date.weekday()` of day number `d`. */
  function Weekday(d: int): (w: int)
    ensures 0 <= w < 7
  {
    (d + 3) % 7
  }

  lemma ModSeven(a: int, q: int, r: int)
    requires a == 7 * q + r && 0 <= r < 7
    ensures a % 7 == r
  {
  }

  /** The six days after a Sunday are Monday to Saturday. */
  lemma AfterSunday(s: int, k: int)
    requires Weekday(s) == Sunday && 0 < k < 7
    ensures Weekday(s + k) == k - 1
  {
    var q := (s + 3) / 7;
    assert s + 3 == 7 * q + 6;
    ModSeven(s + k + 3, q + 1, k - 1);
  }

  /** The first day of the week holding `today`: `(weekday + 1) % 7` days
      back. */
  function WeekStart(today: int): (s: int)
    ensures Weekday(s) == Sunday
    ensures today - 6 <= s <= today
    ensures forall d :: s < d <= today ==> Weekday(d) != Sunday
  {
    var s := today - (Weekday(today) + 1) % 7;
    StepBackToSunday(today);
    s
  }

  /** Going back `(weekday + 1) % 7` days lands on a Sunday, passing no other
      Sunday. */
  lemma StepBackToSunday(today: int)
    ensures var s := today - (Weekday(today) + 1) % 7;
      && Weekday(s) == Sunday
      && today - 6 <= s <= today
      && forall d :: s < d <= today ==> Weekday(d) != Sunday
  {
    var w := Weekday(today);
    var back := (w + 1) % 7;
    assert back == if w == 6 then 0 else w + 1;
    var s := today - back;
    if w != 6 {
      var q := (today + 3) / 7;
      assert today + 3 == 7 * q + w;
      ModSeven(s + 3, q - 1, 6);
    }
    forall d | s < d <= today
      ensures Weekday(d) != Sunday
    {
      AfterSunday(s, d - s);
    }
  }

  /** The last day of the week: Saturday, six days after its start. */
  function WeekEnd(today: int): int {
    WeekStart(today) + 6
  }

  /** The positions of the creation days that fall from the Sunday to the
      Saturday of the week holding `today`, both included. */
  ghost function InWeek(created: seq<int>, today: int): set<int> {
    set i | 0 <= i < |created| && WeekStart(today) <= created[i] <= WeekEnd(today)
  }

  /** How many of the user's AI generations were created this week. */
  function WeekCount(created: seq<int>, today: int): (n: nat)
    ensures n == |InWeek(created, today)|
    ensures n <= |created|
    decreases |created|
  {
    if created == [] then 0
    else
      var d := created[|created| - 1];
      InWeekSnoc(created, today);
      WeekCount(created[..|created| - 1], today)
        + (if WeekStart(today) <= d <= WeekEnd(today) then 1 else 0)
  }

  /** One more creation day adds its position to the week's positions when
      it falls in the week. */
  lemma InWeekSnoc(created: seq<int>, today: int)
    requires created != []
    ensures var n := |created| - 1;
      && n !in InWeek(created[..n], today)
      && InWeek(created, today) ==
           InWeek(created[..n], today) + (if WeekStart(today) <= created[n] <= WeekEnd(today) then {n} else {})
  {
    var n := |created| - 1;
    var prefix := created[..n];
    forall i | 0 <= i < n
      ensures created[i] == prefix[i]
    {
    }
  }

  /** How a request that passed the quota ended: the item was saved; the
      serializer rejected it (a 400); an exception inside the view's `try`
      came before the save (a 500); or the item was saved and an exception
      came after, in `serializer.data` or in the program view's progress
      update (a 500 that still leaves the item created). */
  datatype Reply = Saved | Invalid | Raised | SavedThenRaised {
    predicate Stored() {
      Saved? || SavedThenRaised?
    }
  }

  /** The response of a generation request and the creation days after it. */
  datatype Outcome = Outcome(response: Result<(), Error>, created: seq<int>)

  /** The quota check of the generation views. */
  function CheckQuota(count: nat): (r: Result<(), Error>)
    ensures r.Success? <==> count < WeeklyLimit
    ensures r.Failure? ==> r.error == BadRequest
  {
    if count >= WeeklyLimit then Failure(BadRequest) else Success(())
  }

  /** The limit views' answer: positive exactly when a generation would pass
      the quota, never above the limit, and negative when the count already
      exceeds the limit. */
  function Remaining(count: nat): (r: int)
    ensures r > 0 <==> CheckQuota(count).Success?
    ensures r <= WeeklyLimit
    ensures count > WeeklyLimit ==> r < 0
  {
    WeeklyLimit - count
  }

  /** The request's own checks: a non-empty prompt and, for a workout, a
      present, non-zero program id. */
  predicate InputsPresent(prompt: string, programId: Option<int>, needsProgram: bool) {
    prompt != [] && (!needsProgram || (programId.Some? && programId.value != 0))
  }

  /** One generation request on `today`: the inputs are checked, then the
      quota, then the model's reply is saved. `reply` stands for the outcome
      of the model call, the serializer and the follow-up update, which are
      not modelled. */
  function Generate(prompt: string, programId: Option<int>, needsProgram: bool,
                    created: seq<int>, today: int, reply: Reply): (r: Outcome)
    ensures !InputsPresent(prompt, programId, needsProgram) ==>
      r == Outcome(Failure(BadRequest), created)
    ensures InputsPresent(prompt, programId, needsProgram) && WeekCount(created, today) >= WeeklyLimit ==>
      r == Outcome(Failure(BadRequest), created)
    ensures r.response.Success? <==>
      && InputsPresent(prompt, programId, needsProgram)
      && WeekCount(created, today) < WeeklyLimit
      && reply == Saved
    ensures r.response == Failure(ServerError) <==>
      && InputsPresent(prompt, programId, needsProgram)
      && WeekCount(created, today) < WeeklyLimit
      && (reply == Raised || reply == SavedThenRaised)
    ensures r.response.Failure? ==> r.response.error in {BadRequest, ServerError}
    ensures r.created == created || r.created == created + [today]
    ensures r.created == created + [today] <==>
      && InputsPresent(prompt, programId, needsProgram)
      && WeekCount(created, today) < WeeklyLimit
      && reply.Stored()
  {
    if !InputsPresent(prompt, programId, needsProgram) then
      Outcome(Failure(BadRequest), created)
    else if CheckQuota(WeekCount(created, today)).Failure? then Outcome(Failure(BadRequest), created)
    else
      match reply
      case Saved => Outcome(Success(()), created + [today])
      case Invalid => Outcome(Failure(BadRequest), created)
      case Raised => Outcome(Failure(ServerError), created)
      case SavedThenRaised => Outcome(Failure(ServerError), created + [today])
  }

  /* ---------------------------------------------------------------------
     Properties
     --------------------------------------------------------------------- */

  /** Every day of a week has the same week start. */
  lemma SameWeekSameStart(a: int, b: int)
    requires WeekStart(a) <= b <= WeekEnd(a)
    ensures WeekStart(b) == WeekStart(a)
  {
    var s := WeekStart(a);
    var t := WeekStart(b);
    if t < s {
      assert false;
    } else if s < t {
      AfterSunday(s, t - s);
    }
  }

  /** A creation on `today` counts in this week; earlier creations keep
      their count. */
  lemma WeekCountSnoc(created: seq<int>, today: int, d: int)
    ensures WeekCount(created + [d], today) ==
      WeekCount(created, today) + (if WeekStart(today) <= d <= WeekEnd(today) then 1 else 0)
  {
    assert (created + [d])[..|created|] == created;
  }

  /** A request that records a creation, granted or failed after the save,
      counts once in its week and takes one off the remaining quota; since
      requests are refused at the limit, a week that started within the
      limit stays within it. */
  lemma {:induction false} QuotaNeverExceeded(created: seq<int>, today: int, prompt: string,
                                              programId: Option<int>, needsProgram: bool,
                                              reply: Reply)
    requires WeekCount(created, today) <= WeeklyLimit
    ensures var r := Generate(prompt, programId, needsProgram, created, today, reply);
      && WeekCount(r.created, today) <= WeeklyLimit
      && (r.response.Success? ==> r.created != created)
      && (r.created != created ==>
            && WeekCount(r.created, today) == WeekCount(created, today) + 1
            && Remaining(WeekCount(r.created, today)) == Remaining(WeekCount(created, today)) - 1
            && Remaining(WeekCount(r.created, today)) >= 0)
  {
    var r := Generate(prompt, programId, needsProgram, created, today, reply);
    if r.created != created {
      WeekCountSnoc(created, today, today);
    }
  }

  /** The count seen on any later day of the same week includes every
      generation made earlier that week. */
  lemma {:induction false} WeekCountSameWeek(created: seq<int>, a: int, b: int)
    requires WeekStart(a) <= b <= WeekEnd(a)
    ensures WeekCount(created, b) == WeekCount(created, a)
    decreases |created|
  {
    SameWeekSameStart(a, b);
    if created != [] {
      WeekCountSameWeek(created[..|created| - 1], a, b);
    }
  }
}

=== FILE: cumulative_weight.dfy ===
/**
 The seven-day tonnage chart (CumulativeWeightView): for each day from six
 days ago to today, the sum of weight times reps over that day's sets.
 Dates are day numbers; `today` is the server's current date.
 */
module CumulativeWeight {
  import opened Journal
  import opened OrderedDicts

  /** One recorded set together with the day of its session. */
  datatype DatedSet = DatedSet(day: int, exerciseSet: ExerciseSet)

  /** The number of days on the chart, today included. */
  const WindowDays: nat := 7

  /** The first day of the chart ending `today`. */
  function WindowStart(today: int): int {
    today - (WindowDays - 1)
  }

  /** The sessions query keeps the days from the window start to today. */
  predicate InWindow(today: int, day: int) {
    WindowStart(today) <= day <= today
  }

  /** `weight_used and reps` is true: both are recorded and neither is zero. */
  predicate Counts(s: ExerciseSet) {
    && s.weightUsed.Some? && s.weightUsed.value != 0
    && s.reps.Some? && s.reps.value != 0
  }

  /** What a counted set adds to its day. */
  function Tonnage(s: ExerciseSet): int
    requires Counts(s)
  {
    s.weightUsed.value * s.reps.value
  }

  /** What entry `e` adds to day `day`: its tonnage when it counts and was
      recorded that day, nothing otherwise. */
  function Contribution(e: DatedSet, day: int): int {
    if e.day == day && Counts(e.exerciseSet) then Tonnage(e.exerciseSet) else 0
  }

  /* ---------------------------------------------------------------------
     Reference definitions
     --------------------------------------------------------------------- */

  /** The tonnage of the sets recorded on `day`. */
  function DayTotal(entries: seq<DatedSet>, day: int): int
    decreases |entries|
  {
    if entries == [] then 0
    else DayTotal(entries[..|entries| - 1], day) + Contribution(entries[|entries| - 1], day)
  }

  /** The tonnage of all counted sets inside the window ending `today`. */
  function WindowTonnage(today: int, entries: seq<DatedSet>): int
    decreases |entries|
  {
    if entries == [] then 0
    else
      var e := entries[|entries| - 1];
      WindowTonnage(today, entries[..|entries| - 1])
        + (if InWindow(today, e.day) && Counts(e.exerciseSet) then Tonnage(e.exerciseSet) else 0)
  }

  /** The chart as a table of days: one point per window day, in date order,
      holding that day's tonnage. */
  function Chart(today: int, entries: seq<DatedSet>): (c: Dict)
    ensures |c| == WindowDays
  {
    seq(WindowDays, j requires 0 <= j < WindowDays =>
      (WindowStart(today) + j, DayTotal(entries, WindowStart(today) + j)))
  }

  /* ---------------------------------------------------------------------
     The view
     --------------------------------------------------------------------- */

  /** The response: the zero-filled window, then one pass over the sets of
      the window's sessions adding each counted set to its day. `entries`
      are the user's sets in query order, sessions outside the window
      included; the query's date filter is the window test below. */
  method CumulativeWeights(today: int, entries: seq<DatedSet>) returns (r: Dict)
    ensures |r| == WindowDays
    ensures DistinctKeys(r)
    ensures forall j :: 0 <= j < WindowDays ==> r[j].0 == today - 6 + j
    ensures forall j :: 0 <= j < WindowDays ==> r[j].1 == DayTotal(entries, r[j].0)
    ensures r == Chart(today, entries)
  {
    var start := WindowStart(today);
    r := seq(WindowDays, j requires 0 <= j < WindowDays => (start + j, 0));
    var i := 0;
    while i < |entries|
      invariant 0 <= i <= |entries|
      invariant |r| == WindowDays
      invariant forall j :: 0 <= j < WindowDays ==> r[j] == (start + j, DayTotal(entries[..i], start + j))
    {
      var e := entries[i];
      if InWindow(today, e.day) && Counts(e.exerciseSet) {
        var j := e.day - start;
        r := r[j := (e.day, r[j].1 + Tonnage(e.exerciseSet))];
      }
      assert entries[..i + 1][..i] == entries[..i];
      i := i + 1;
    }
    assert entries[..|entries|] == entries;
  }

  /* ---------------------------------------------------------------------
     Properties
     --------------------------------------------------------------------- */

  /** Days without a counted set stay at zero. */
  lemma {:induction false} IdleDayIsZero(entries: seq<DatedSet>, day: int)
    requires forall i :: 0 <= i < |entries| && entries[i].day == day ==> !Counts(entries[i].exerciseSet)
    ensures DayTotal(entries, day) == 0
    decreases |entries|
  {
    if entries != [] {
      IdleDayIsZero(entries[..|entries| - 1], day);
    }
  }

  /** One more set changes the chart at its own day only, by its tonnage. */
  lemma ChartSnoc(today: int, entries: seq<DatedSet>, e: DatedSet)
    ensures var c := Chart(today, entries); var c' := Chart(today, entries + [e]);
      if InWindow(today, e.day) && Counts(e.exerciseSet) then
        var j := e.day - WindowStart(today);
        c' == c[j := (c[j].0, c[j].1 + Tonnage(e.exerciseSet))]
      else c' == c
  {
    var es := entries + [e];
    assert es[..|entries|] == entries && es[|entries|] == e;
    forall day
      ensures DayTotal(es, day) == DayTotal(entries, day) + Contribution(e, day)
    {
    }
    var c := Chart(today, entries);
    var c' := Chart(today, es);
    if InWindow(today, e.day) && Counts(e.exerciseSet) {
      var j := e.day - WindowStart(today);
      assert forall k :: 0 <= k < WindowDays ==>
        c'[k] == (if k == j then (c[j].0, c[j].1 + Tonnage(e.exerciseSet)) else c[k]);
    } else {
      assert forall k :: 0 <= k < WindowDays ==> c'[k] == c[k];
    }
  }

  /** The points add up to the tonnage of the window: no counted set inside
      the window is lost and none outside it is counted. */
  lemma {:induction false} ChartTotalIsWindowTonnage(today: int, entries: seq<DatedSet>)
    ensures Total(Chart(today, entries)) == WindowTonnage(today, entries)
    decreases |entries|
  {
    if entries == [] {
      var c := Chart(today, []);
      assert forall j :: 0 <= j < WindowDays ==> c[j].1 == DayTotal([], WindowStart(today) + j);
      assert AllZero(c);
      ZeroTotal(c);
    } else {
      var n := |entries| - 1;
      var prefix := entries[..n];
      var e := entries[n];
      assert entries == prefix + [e];
      ChartTotalIsWindowTonnage(today, prefix);
      ChartSnoc(today, prefix, e);
      if InWindow(today, e.day) && Counts(e.exerciseSet) {
        var c := Chart(today, prefix);
        TotalAdd(c, e.day - WindowStart(today), Tonnage(e.exerciseSet));
      }
    }
  }
}

=== FILE: execution_log.dfy ===
/**
 Appending a set to an exercise log and undoing the last one
 (ExerciseSetCreateAPIView.post and DeleteLastExerciseSetAPIView.delete).
 */
module ExecutionLog {
  import opened Wrappers
  import opened Journal

  /** The highest set number of a log, or 0 when it has no set numbered above 0. */
  function MaxSetNumber(sets: seq<ExerciseSet>): (m: int)
    ensures m >= 0
    ensures forall i :: 0 <= i < |sets| ==> sets[i].setNumber <= m
    ensures m == 0 || exists i :: 0 <= i < |sets| && sets[i].setNumber == m
  {
    if sets == [] then 0
    else
      var rest := MaxSetNumber(sets[..|sets| - 1]);
      var last := sets[|sets| - 1].setNumber;
      if last > rest then last else rest
  }

  /** The set a log ends with. */
  function Last(sets: seq<ExerciseSet>): ExerciseSet
    requires sets != []
  {
    sets[|sets| - 1]
  }

  /** The number the next set gets: one past the log's last set, or 1. In a
      gap-free log that is one past the count. */
  function NextSetNumber(sets: seq<ExerciseSet>): (n: int)
    ensures GapFree(sets) ==> n == |sets| + 1
  {
    if |sets| > 0 then Last(sets).setNumber + 1 else 1
  }

  /** Records a set on log `logId`; the log must exist. */
  function AppendSet(st: Store, logId: int, reps: Option<int>, weightUsed: Option<int>)
    : (r: Result<(Store, ExerciseSet), Error>)
    ensures r.Success? <==> logId in st.logs
    ensures r.Failure? ==> r.error == ServerError
    ensures r.Success? ==>
      var (st', added) := r.value;
      var log := st.logs[logId];
      && added == ExerciseSet(NextSetNumber(log.sets), reps, weightUsed)
      && st' == st.(logs := st.logs[logId := log.(sets := log.sets + [added], setsCompleted := log.setsCompleted + 1)])
  {
    if logId !in st.logs then Failure(ServerError)
    else
      var log := st.logs[logId];
      var added := ExerciseSet(NextSetNumber(log.sets), reps, weightUsed);
      var log' := log.(sets := log.sets + [added], setsCompleted := log.setsCompleted + 1);
      Success((st.(logs := st.logs[logId := log']), added))
  }

  /** Removes the highest-numbered set of log `logId`, provided the log holds
      more sets than its planned exercise asks for. */
  function DeleteLastSet(st: Store, logId: int): (r: Result<Store, Error>)
    ensures logId !in st.logs ==> r == Failure(NotFound)
    ensures logId in st.logs && st.logs[logId].workoutExercise !in st.workoutExercises ==>
      r == Failure(ServerError)
    ensures (logId in st.logs && st.logs[logId].workoutExercise in st.workoutExercises
             && st.logs[logId].sets == []) ==> r == Failure(NotFound)
    ensures (logId in st.logs && st.logs[logId].workoutExercise in st.workoutExercises
             && st.logs[logId].sets != []
             && |st.logs[logId].sets| <= st.workoutExercises[st.logs[logId].workoutExercise].sets) ==>
      r == Failure(BadRequest)
    ensures r.Success? <==>
      && logId in st.logs
      && st.logs[logId].workoutExercise in st.workoutExercises
      && st.logs[logId].sets != []
      && st.workoutExercises[st.logs[logId].workoutExercise].sets < |st.logs[logId].sets|
    ensures r.Success? ==>
      var log := st.logs[logId];
      r.value == st.(logs := st.logs[logId := log.(
           sets := log.sets[..|log.sets| - 1],
           setsCompleted := if log.setsCompleted - 1 > 0 then log.setsCompleted - 1 else 0)])
  {
    if logId !in st.logs then Failure(NotFound)
    else
      var log := st.logs[logId];
      if log.workoutExercise !in st.workoutExercises then Failure(ServerError)
      else if log.sets == [] then Failure(NotFound)
      else if |log.sets| > st.workoutExercises[log.workoutExercise].sets then
        var remaining := log.sets[..|log.sets| - 1];
        var completed := if log.setsCompleted - 1 > 0 then log.setsCompleted - 1 else 0;
        Success(st.(logs := st.logs[logId := log.(sets := remaining, setsCompleted := completed)]))
      else Failure(BadRequest)
  }

  /* ---------------------------------------------------------------------
     Properties
     --------------------------------------------------------------------- */

  /** In a gap-free log the next set number is one past the highest and one
      past the count, so it is above every number the log holds now. */
  lemma {:induction false} NextNumberFollowsMax(sets: seq<ExerciseSet>)
    requires GapFree(sets)
    ensures NextSetNumber(sets) == MaxSetNumber(sets) + 1 == |sets| + 1
    ensures forall i :: 0 <= i < |sets| ==> sets[i].setNumber < NextSetNumber(sets)
  {
    if sets != [] {
      var m := MaxSetNumber(sets);
      assert sets[|sets| - 1].setNumber == |sets|;
      if m != 0 {
        var i :| 0 <= i < |sets| && sets[i].setNumber == m;
        assert m <= |sets|;
      }
    }
  }

  /** Appending to a consistent log keeps it gap-free, keeps the count in
      `sets_completed`, and leaves the earlier sets as they were. */
  lemma AppendKeepsLogConsistent(st: Store, logId: int, reps: Option<int>, weightUsed: Option<int>)
    requires LogsConsistent(st.logs)
    requires AppendSet(st, logId, reps, weightUsed).Success?
    ensures
      var (st', added) := AppendSet(st, logId, reps, weightUsed).value;
      && LogsConsistent(st'.logs)
      && added.setNumber == |st.logs[logId].sets| + 1
      && st'.logs[logId].sets[..|st.logs[logId].sets|] == st.logs[logId].sets
  {
    var (st', added) := AppendSet(st, logId, reps, weightUsed).value;
    var sets := st.logs[logId].sets;
    NextNumberFollowsMax(sets);
    assert st'.logs[logId].sets == sets + [added];
    assert (sets + [added])[..|sets|] == sets;
  }

  /** A successful delete keeps the invariants and removes exactly the set
      holding the highest number; the sets before it are untouched. */
  lemma DeleteRemovesHighest(st: Store, logId: int)
    requires LogsConsistent(st.logs)
    requires DeleteLastSet(st, logId).Success?
    ensures
      var st' := DeleteLastSet(st, logId).value;
      var sets := st.logs[logId].sets;
      && LogsConsistent(st'.logs)
      && |st'.logs[logId].sets| == |sets| - 1
      && (forall i :: 0 <= i < |sets| - 1 ==> st'.logs[logId].sets[i] == sets[i])
      && sets[|sets| - 1].setNumber == MaxSetNumber(sets)
      && (forall i :: 0 <= i < |sets| - 1 ==> sets[i].setNumber < MaxSetNumber(sets))
  {
    var sets := st.logs[logId].sets;
    NextNumberFollowsMax(sets);
  }

  /** Deleting right after an append restores the store, as long as the
      append took the log past its plan and the log was consistent. */
  lemma DeleteUndoesAppend(st: Store, logId: int, reps: Option<int>, weightUsed: Option<int>)
    requires logId in st.logs && LogConsistent(st.logs[logId])
    requires st.logs[logId].workoutExercise in st.workoutExercises
    requires st.workoutExercises[st.logs[logId].workoutExercise].sets <= |st.logs[logId].sets|
    ensures
      var appended := AppendSet(st, logId, reps, weightUsed).value.0;
      DeleteLastSet(appended, logId) == Success(st)
  {
    var log := st.logs[logId];
    var (st', added) := AppendSet(st, logId, reps, weightUsed).value;
    assert (log.sets + [added])[..|log.sets|] == log.sets;
    assert st'.logs[logId := log] == st.logs;
  }

  /** Re-appending the set just deleted, with the same reps and weight,
      restores the store: the freed number is handed out again. */
  lemma AppendRedoesDelete(st: Store, logId: int)
    requires logId in st.logs && LogConsistent(st.logs[logId])
    requires DeleteLastSet(st, logId).Success?
    ensures
      var removed := Last(st.logs[logId].sets);
      var st' := DeleteLastSet(st, logId).value;
      AppendSet(st', logId, removed.reps, removed.weightUsed) == Success((st, removed))
  {
    var log := st.logs[logId];
    var removed := Last(log.sets);
    var remaining := log.sets[..|log.sets| - 1];
    var shortened := log.(sets := remaining, setsCompleted := |remaining|);
    var st' := st.(logs := st.logs[logId := shortened]);
    assert DeleteLastSet(st, logId) == Success(st');
    assert removed.setNumber == |log.sets|;
    assert NextSetNumber(remaining) == |log.sets| by {
      if remaining != [] {
        assert remaining[|remaining| - 1].setNumber == |remaining|;
      }
    }
    assert remaining + [removed] == log.sets;
    assert shortened.(sets := remaining + [removed], setsCompleted := |remaining| + 1) == log;
    assert st'.logs[logId := log] == st.logs;
  }
}

=== FILE: journal.dfy ===
/**
 The rows of the workout journal, kept as immutable values in maps keyed by
 their database id, together with the query helpers the views share and the
 consistency predicates the transitions preserve.
 */
module Journal {
  import opened Wrappers

  /** The classes of error response the views return. */
  datatype Error =
    | NotFound     // HTTP 404
    | BadRequest   // HTTP 400
    | ServerError  // HTTP 500: an exception no view catches, or one the AI views catch and answer with 500

  /** A UserProgramProgress row: `user` follows `program`. */
  datatype ProgramProgress = ProgramProgress(user: int, program: int, isActive: bool)

  /** A WorkoutSession row; `date` is a day number. */
  datatype WorkoutSession = WorkoutSession(
    progress: int,
    workout: int,
    date: int,
    active: bool,
    completed: bool)

  /** A WorkoutExercise row: the planned sets and reps of one exercise. */
  datatype WorkoutExercise = WorkoutExercise(sets: int, reps: int)

  /** An ExerciseSet row; reps and weight are optional in the request. */
  datatype ExerciseSet = ExerciseSet(setNumber: int, reps: Option<int>, weightUsed: Option<int>)

  /** An ExerciseLog row with its sets in `set_number` order. */
  datatype ExerciseLog = ExerciseLog(
    session: int,
    workoutExercise: int,
    setsCompleted: int,
    sets: seq<ExerciseSet>)

  /** The tables the journal views read and write. */
  datatype Store = Store(
    programs: set<int>,
    progress: map<int, ProgramProgress>,
    sessions: map<int, WorkoutSession>,
    workoutExercises: map<int, WorkoutExercise>,
    logs: map<int, ExerciseLog>)

  /* ---------------------------------------------------------------------
     Query helpers
     --------------------------------------------------------------------- */

  lemma EmptyOrInhabited(s: set<int>)
    ensures s == {} || exists k :: k in s
  {
    if forall k :: k !in s {
      assert s == {};
    }
  }

  lemma SingletonHasElement(s: set<int>)
    requires |s| == 1
    ensures exists k :: s == {k}
  {
    EmptyOrInhabited(s);
    var k :| k in s;
    assert |s - {k}| == 0;
    assert s == {k};
  }

  lemma UniqueMeansSingleton(s: set<int>)
    ensures (exists k :: k in s && forall o :: o in s ==> o == k) ==> |s| == 1
  {
    if k :| k in s && forall o :: o in s ==> o == k {
      assert s == {k};
    }
  }

  lemma SingletonIff(s: set<int>)
    ensures |s| == 1 <==> exists k :: k in s && forall o :: o in s ==> o == k
  {
    UniqueMeansSingleton(s);
    if |s| == 1 {
      SingletonHasElement(s);
      var k :| s == {k};
      assert k in s && forall o :: o in s ==> o == k;
    }
  }

  lemma SeveralIff(s: set<int>)
    ensures |s| > 1 <==> exists a, b :: a in s && b in s && a != b
  {
    if |s| > 1 {
      EmptyOrInhabited(s);
      var a :| a in s;
      EmptyOrInhabited(s - {a});
      var b :| b in s - {a};
      assert a in s && b in s && a != b;
    }
    if a, b :| a in s && b in s && a != b {
      assert |s - {a}| == |s| - 1;
      assert b in s - {a};
      assert s - {a} != {};
    }
  }

  /** The `.get()` of a query whose matching ids are `ids`: no row is a 404
      and several rows raise an error the views do not catch. */
  function GetOne(ids: set<int>): (r: Result<int, Error>)
    ensures r.Success? <==> |ids| == 1
    ensures r.Success? ==> ids == {r.value}
    ensures r == Failure(NotFound) <==> ids == {}
    ensures r == Failure(ServerError) <==> |ids| > 1
  {
    if ids == {} then Failure(NotFound)
    else if |ids| > 1 then Failure(ServerError)
    else
      SingletonHasElement(ids);
      var k :| ids == {k};
      Success(k)
  }

  /** A non-empty set of ids has a least element. */
  lemma {:induction false} LeastOf(s: set<int>) returns (m: int)
    requires s != {}
    ensures m in s && forall k :: k in s ==> m <= k
    decreases |s|
  {
    EmptyOrInhabited(s);
    var x :| x in s;
    var rest := s - {x};
    assert forall k :: k in s ==> k == x || k in rest;
    if rest == {} {
      m := x;
    } else {
      assert |rest| < |s|;
      var m' := LeastOf(rest);
      m := if x < m' then x else m';
    }
  }

  lemma HasLeast(s: set<int>)
    requires s != {}
    ensures exists m :: m in s && forall k :: k in s ==> m <= k
  {
    var m := LeastOf(s);
  }

  /** The `.first()` of a query without explicit ordering: the lowest id. */
  function LeastId(s: set<int>): (m: int)
    requires s != {}
    ensures m in s
    ensures forall k :: k in s ==> m <= k
  {
    HasLeast(s);
    var m :| m in s && forall k :: k in s ==> m <= k;
    m
  }

  /* ---------------------------------------------------------------------
     Consistency of the tables
     --------------------------------------------------------------------- */

  /** Set numbers run 1, 2, ..., n in sequence order, with no gaps. */
  predicate GapFree(sets: seq<ExerciseSet>) {
    forall i :: 0 <= i < |sets| ==> sets[i].setNumber == i + 1
  }

  /** A log whose numbering has no gaps and whose `sets_completed` counts its sets. */
  predicate LogConsistent(log: ExerciseLog) {
    GapFree(log.sets) && log.setsCompleted == |log.sets|
  }

  predicate LogsConsistent(logs: map<int, ExerciseLog>) {
    forall id :: id in logs ==> LogConsistent(logs[id])
  }

  /** A session is never both running and completed. */
  predicate SessionStatesValid(sessions: map<int, WorkoutSession>) {
    forall id :: id in sessions ==> !(sessions[id].active && sessions[id].completed)
  }

  predicate ActiveRow(progress: map<int, ProgramProgress>, user: int, id: int) {
    id in progress && progress[id].user == user && progress[id].isActive
  }

  /** At most one active progress row per user. */
  ghost predicate AtMostOneActiveProgram(progress: map<int, ProgramProgress>) {
    forall user, a, b :: ActiveRow(progress, user, a) && ActiveRow(progress, user, b) ==> a == b
  }

  predicate RowFor(progress: map<int, ProgramProgress>, user: int, program: int, id: int) {
    id in progress && progress[id].user == user && progress[id].program == program
  }

  /** At most one progress row per (user, program) pair. */
  ghost predicate UniqueProgressRows(progress: map<int, ProgramProgress>) {
    forall user, program, a, b :: RowFor(progress, user, program, a) && RowFor(progress, user, program, b) ==> a == b
  }

  /** The foreign key from a progress row to its program: the program exists,
      and program ids, being auto-incremented keys, are positive. */
  ghost predicate ProgressNamesPrograms(st: Store) {
    && (forall p :: p in st.programs ==> p > 0)
    && forall id :: id in st.progress ==> st.progress[id].program in st.programs
  }

  /** The invariants the modelled transitions keep. */
  ghost predicate Valid(st: Store) {
    && LogsConsistent(st.logs)
    && SessionStatesValid(st.sessions)
    && AtMostOneActiveProgram(st.progress)
    && UniqueProgressRows(st.progress)
    && ProgressNamesPrograms(st)
  }
}

=== FILE: one_rep_max.dfy ===
/**
 The best estimated one-rep max per day for the strength chart
 (Exercise1RMView.prepare_chart_data). Each estimate is the rounded Epley
 value of one set, taken here as a given integer (tenths of a weight unit).
 */
module OneRepMax {
  import opened OrderedDicts

  /** The estimate of one set and the day of its session. */
  datatype Estimate = Estimate(day: int, value: int)

  /** One turn of the loop: keep the estimate when its day has none yet or
      when it beats the day's best so far. */
  function Keep(d: Dict, e: Estimate): (r: Dict)
    ensures e.day !in Keys(d) ==> r == d + [(e.day, e.value)]
    ensures e.day in Keys(d) ==> Keys(r) == Keys(d)
    ensures DistinctKeys(d) ==> DistinctKeys(r)
    ensures DistinctKeys(d) ==> forall i :: 0 <= i < |d| ==>
      r[i] == if d[i].0 == e.day && e.value > d[i].1 then (e.day, e.value) else d[i]
  {
    assert DistinctKeys(d) && e.day in Keys(d) ==>
      forall i :: 0 <= i < |d| && d[i].0 == e.day ==> d[i].1 == Get(d, e.day);
    if e.day !in Keys(d) || e.value > Get(d, e.day) then Put(d, e.day, e.value) else d
  }

  /** The chart data for estimates in session-date order: one point per
      distinct day, in the order the days first occur. */
  function BestPerDay(estimates: seq<Estimate>): (r: Dict)
    ensures DistinctKeys(r)
    ensures Keys(r) == Dedup(Days(estimates))
    decreases |estimates|
  {
    if estimates == [] then []
    else
      var prefix := estimates[..|estimates| - 1];
      var d := BestPerDay(prefix);
      DaysSnoc(estimates);
      KeepKeys(d, estimates[|estimates| - 1], Days(prefix));
      Keep(d, estimates[|estimates| - 1])
  }

  /* ---------------------------------------------------------------------
     Reference definitions
     --------------------------------------------------------------------- */

  function Days(estimates: seq<Estimate>): (ds: seq<int>)
    ensures |ds| == |estimates|
    ensures forall i :: 0 <= i < |estimates| ==> ds[i] == estimates[i].day
  {
    seq(|estimates|, i requires 0 <= i < |estimates| => estimates[i].day)
  }

  /** `v` is the largest estimate recorded on `day`. */
  ghost predicate DayMax(estimates: seq<Estimate>, day: int, v: int) {
    && (exists i :: 0 <= i < |estimates| && estimates[i] == Estimate(day, v))
    && forall i :: 0 <= i < |estimates| && estimates[i].day == day ==> estimates[i].value <= v
  }

  /* ---------------------------------------------------------------------
     Properties
     --------------------------------------------------------------------- */

  lemma DaysSnoc(estimates: seq<Estimate>)
    requires estimates != []
    ensures Days(estimates) == Days(estimates[..|estimates| - 1]) + [estimates[|estimates| - 1].day]
  {
  }

  /** One turn of the loop adds the estimate's day to the keys when new. */
  lemma KeepKeys(d: Dict, e: Estimate, ds: seq<int>)
    requires DistinctKeys(d) && Keys(d) == Dedup(ds)
    ensures DistinctKeys(Keep(d, e)) && Keys(Keep(d, e)) == Dedup(ds + [e.day])
  {
    DedupSnoc(ds, e.day);
    if e.day !in Keys(d) {
      AppendNewKey(d, e.day, e.value);
    }
  }

  /** A day's maximum stays its maximum when a smaller estimate, or one of
      another day, is recorded after it. */
  lemma DayMaxExtend(prefix: seq<Estimate>, e: Estimate, day: int, v: int)
    requires DayMax(prefix, day, v)
    requires e.day != day || e.value <= v
    ensures DayMax(prefix + [e], day, v)
  {
    var i :| 0 <= i < |prefix| && prefix[i] == Estimate(day, v);
    assert (prefix + [e])[i] == Estimate(day, v);
  }

  /** A new estimate is its day's maximum when it beats the old maximum, or
      when the day had no estimate before. */
  lemma DayMaxReplace(prefix: seq<Estimate>, e: Estimate)
    requires (forall j :: 0 <= j < |prefix| && prefix[j].day == e.day ==> prefix[j].value < e.value)
    ensures DayMax(prefix + [e], e.day, e.value)
  {
    assert (prefix + [e])[|prefix|] == e;
  }

  /** Each point of the chart is the best estimate of its day. */
  lemma {:induction false} ChartPointsAreDayMaxima(estimates: seq<Estimate>)
    ensures var r := BestPerDay(estimates);
      forall i :: 0 <= i < |r| ==> DayMax(estimates, r[i].0, r[i].1)
    decreases |estimates|
  {
    if estimates != [] {
      var n := |estimates| - 1;
      var prefix := estimates[..n];
      var e := estimates[n];
      assert estimates == prefix + [e];
      assert BestPerDay(estimates) == Keep(BestPerDay(prefix), e);
      ChartPointsAreDayMaxima(prefix);
      KeepKeepsDayMaxima(prefix, BestPerDay(prefix), e);
    }
  }

  /** One turn of the loop keeps every point its day's maximum. */
  lemma KeepKeepsDayMaxima(prefix: seq<Estimate>, d: Dict, e: Estimate)
    requires DistinctKeys(d) && Keys(d) == Dedup(Days(prefix))
    requires forall i :: 0 <= i < |d| ==> DayMax(prefix, d[i].0, d[i].1)
    ensures var r := Keep(d, e);
      forall i :: 0 <= i < |r| ==> DayMax(prefix + [e], r[i].0, r[i].1)
  {
    var r := Keep(d, e);
    DedupSnoc(Days(prefix), e.day);
    forall i | 0 <= i < |r|
      ensures DayMax(prefix + [e], r[i].0, r[i].1)
    {
      if i < |d| {
        if d[i].0 == e.day && e.value > d[i].1 {
          DayMaxReplace(prefix, e);
        } else {
          DayMaxExtend(prefix, e, d[i].0, d[i].1);
        }
      } else {
        assert e.day !in Keys(d);
        forall j | 0 <= j < |prefix|
          ensures prefix[j].day != e.day
        {
          assert Days(prefix)[j] == prefix[j].day;
        }
        DayMaxReplace(prefix, e);
      }
    }
  }

  predicate StrictlyAscending(xs: seq<int>) {
    forall i, j :: 0 <= i < j < |xs| ==> xs[i] < xs[j]
  }

  lemma {:induction false} DedupAscending(xs: seq<int>)
    requires forall i, j :: 0 <= i < j < |xs| ==> xs[i] <= xs[j]
    ensures StrictlyAscending(Dedup(xs))
    decreases |xs|
  {
    if xs != [] {
      var n := |xs| - 1;
      var y := xs[n];
      var r := Dedup(xs[..n]);
      assert xs == xs[..n] + [y];
      DedupAscending(xs[..n]);
      DedupSnoc(xs[..n], y);
      if y !in r {
        forall i | 0 <= i < |r|
          ensures r[i] < y
        {
          assert r[i] in xs[..n];
          var k :| 0 <= k < n && xs[k] == r[i];
        }
        AscendingSnoc(r, y);
      }
    }
  }

  lemma AscendingSnoc(r: seq<int>, y: int)
    requires StrictlyAscending(r)
    requires forall i :: 0 <= i < |r| ==> r[i] < y
    ensures StrictlyAscending(r + [y])
  {
  }

  /** Estimates arrive ordered by session date, so the chart's days are
      strictly increasing. */
  lemma ChartDaysAscending(estimates: seq<Estimate>)
    requires forall i, j :: 0 <= i < j < |estimates| ==> estimates[i].day <= estimates[j].day
    ensures StrictlyAscending(Keys(BestPerDay(estimates)))
  {
    DedupAscending(Days(estimates));
  }
}

=== FILE: ordered_dicts.dfy ===
/**
 Insertion-ordered dictionaries, as the analytics views build them with
 Python's dict and OrderedDict: a sequence of entries in the order their
 keys were first assigned, assignment to a present key overwriting it in
 place.
 */
module OrderedDicts {
  import opened Wrappers

  /** Keys are day or week numbers and values are counts or totals. */
  type Dict = seq<(int, int)>

  function Keys(d: Dict): (ks: seq<int>)
    ensures |ks| == |d|
    ensures forall i :: 0 <= i < |d| ==> ks[i] == d[i].0
  {
    seq(|d|, i requires 0 <= i < |d| => d[i].0)
  }

  predicate DistinctKeys(d: Dict) {
    forall i, j :: 0 <= i < j < |d| ==> d[i].0 != d[j].0
  }

  /** The position of key `k`, if present. */
  function Find(d: Dict, k: int): (r: Option<nat>)
    ensures r.Some? ==> r.value < |d| && d[r.value].0 == k
    ensures r.None? <==> k !in Keys(d)
  {
    if d == [] then None
    else if d[|d| - 1].0 == k then Some(|d| - 1)
    else
      var r := Find(d[..|d| - 1], k);
      assert Keys(d) == Keys(d[..|d| - 1]) + [d[|d| - 1].0];
      r
  }

  /** `d[k]` of a present key. */
  function Get(d: Dict, k: int): (v: int)
    requires k in Keys(d)
    ensures exists i :: 0 <= i < |d| && d[i] == (k, v)
  {
    var i := Find(d, k).value;
    d[i].1
  }

  /** `d[k] = v`: overwrites a present key in place, appends a new one. */
  function Put(d: Dict, k: int, v: int): (r: Dict)
    ensures k in Keys(d) ==> Keys(r) == Keys(d)
    ensures k !in Keys(d) ==> r == d + [(k, v)]
    ensures DistinctKeys(d) ==> DistinctKeys(r)
    ensures DistinctKeys(d) ==> forall i :: 0 <= i < |d| ==> r[i] == (if d[i].0 == k then (k, v) else d[i])
    ensures DistinctKeys(d) ==> forall i :: |d| <= i < |r| ==> r[i] == (k, v)
  {
    match Find(d, k)
    case Some(i) => d[i := (k, v)]
    case None => d + [(k, v)]
  }

  /** The keys of `xs` without repeats, each where it first occurs. */
  function Dedup(xs: seq<int>): (r: seq<int>)
  {
    DedupInto([], xs)
  }

  /** Appends to `acc` the elements of `xs` it does not hold yet, in order. */
  function DedupInto(acc: seq<int>, xs: seq<int>): (r: seq<int>)
    ensures forall x :: x in r <==> x in acc || x in xs
    ensures |acc| <= |r| && r[..|acc|] == acc
    decreases |xs|
  {
    if xs == [] then acc
    else
      var acc' := if xs[0] in acc then acc else acc + [xs[0]];
      var r := DedupInto(acc', xs[1..]);
      assert r[..|acc|] == r[..|acc'|][..|acc|];
      assert forall x :: x in xs <==> x == xs[0] || x in xs[1..];
      r
  }

  /** Assigning a key keeps the key order of a dictionary built the same
      way: the keys are those first assigned, in the order of first
      assignment. */
  lemma PutKeysDedup(d: Dict, k: int, v: int)
    ensures Keys(Put(d, k, v)) == (if k in Keys(d) then Keys(d) else Keys(d) + [k])
  {
    if k !in Keys(d) {
      assert Keys(d + [(k, v)]) == Keys(d) + [k];
    }
  }

  /** Appending an absent key keeps the keys distinct. */
  lemma AppendNewKey(d: Dict, k: int, v: int)
    requires DistinctKeys(d) && k !in Keys(d)
    ensures DistinctKeys(d + [(k, v)])
    ensures Keys(d + [(k, v)]) == Keys(d) + [k]
  {
    assert forall i :: 0 <= i < |d| ==> d[i].0 in Keys(d);
  }

  /** Deduplicating one more element keeps the earlier result and appends
      the element when it is new. */
  lemma {:induction false} DedupIntoSnoc(acc: seq<int>, xs: seq<int>, y: int)
    ensures DedupInto(acc, xs + [y]) ==
      var r := DedupInto(acc, xs); if y in r then r else r + [y]
    decreases |xs|
  {
    if xs == [] {
      assert DedupInto(acc, [y]) == DedupInto(if y in acc then acc else acc + [y], []);
    } else {
      var acc' := if xs[0] in acc then acc else acc + [xs[0]];
      assert (xs + [y])[0] == xs[0] && (xs + [y])[1..] == xs[1..] + [y];
      DedupIntoSnoc(acc', xs[1..], y);
    }
  }

  lemma DedupSnoc(xs: seq<int>, y: int)
    ensures Dedup(xs + [y]) == if y in Dedup(xs) then Dedup(xs) else Dedup(xs) + [y]
    ensures forall x :: x in Dedup(xs) <==> x in xs
  {
    DedupIntoSnoc([], xs, y);
  }

  /** The sum of the values. */
  function Total(d: Dict): int
    decreases |d|
  {
    if d == [] then 0 else Total(d[..|d| - 1]) + d[|d| - 1].1
  }

  /** `d[k] += x` on the entry at position `i` adds `x` to the sum. */
  lemma {:induction false} TotalAdd(d: Dict, i: int, x: int)
    requires 0 <= i < |d|
    ensures Total(d[i := (d[i].0, d[i].1 + x)]) == Total(d) + x
    decreases |d|
  {
    var d' := d[i := (d[i].0, d[i].1 + x)];
    if i < |d| - 1 {
      assert d'[..|d| - 1] == d[..|d| - 1][i := (d[i].0, d[i].1 + x)];
      TotalAdd(d[..|d| - 1], i, x);
    } else {
      assert d'[..|d| - 1] == d[..|d| - 1];
    }
  }

  /** `d[k] += x` on a present key adds `x` to the sum. */
  lemma PutAddTotal(d: Dict, k: int, x: int)
    requires k in Keys(d)
    ensures Total(Put(d, k, Get(d, k) + x)) == Total(d) + x
  {
    var i := Find(d, k).value;
    assert Put(d, k, Get(d, k) + x) == d[i := (d[i].0, d[i].1 + x)];
    TotalAdd(d, i, x);
  }

  predicate AllZero(d: Dict) {
    forall i :: 0 <= i < |d| ==> d[i].1 == 0
  }

  lemma {:induction false} ZeroTotal(d: Dict)
    requires AllZero(d)
    ensures Total(d) == 0
    decreases |d|
  {
    if d != [] {
      ZeroTotal(d[..|d| - 1]);
    }
  }
}

=== FILE: program_progress.dfy ===
/**
 The user's followed programs: looking up the active one (ActiveProgramView)
 and switching one off (SetInactiveProgramView).
 */
module ProgramProgressViews {
  import opened Wrappers
  import opened Journal

  /** Ids of the user's active progress rows. */
  function ActiveRows(st: Store, user: int): (ids: set<int>)
    ensures forall id :: id in ids <==> ActiveRow(st.progress, user, id)
  {
    set id | id in st.progress && ActiveRow(st.progress, user, id)
  }

  /** Ids of the progress rows binding `user` to `program`. */
  function RowsFor(st: Store, user: int, program: int): (ids: set<int>)
    ensures forall id :: id in ids <==> RowFor(st.progress, user, program, id)
  {
    set id | id in st.progress && RowFor(st.progress, user, program, id)
  }

  /** The program of the user's active progress row. */
  function ActiveProgram(st: Store, user: int): (r: Result<int, Error>)
    ensures r == Failure(NotFound) <==> forall id :: !ActiveRow(st.progress, user, id)
    ensures r == Failure(ServerError) <==>
      exists a, b :: ActiveRow(st.progress, user, a) && ActiveRow(st.progress, user, b) && a != b
    ensures r.Success? ==>
      exists id :: ActiveRow(st.progress, user, id) && st.progress[id].program == r.value
    ensures r.Failure? ==> r.error != BadRequest
  {
    var ids := ActiveRows(st, user);
    SeveralIff(ids);
    var id :- GetOne(ids);
    Success(st.progress[id].program)
  }

  /** Switches the user's progress row for `programId` off. The request's
      program id may be absent; an absent or zero id is rejected. */
  function Deactivate(st: Store, user: int, programId: Option<int>): (r: Result<Store, Error>)
    ensures (programId == None || programId == Some(0)) ==> r == Failure(BadRequest)
    ensures (programId.Some? && programId.value != 0 && programId.value !in st.programs) ==>
      r == Failure(NotFound)
    ensures r.Success? <==>
      && programId.Some? && programId.value != 0 && programId.value in st.programs
      && exists id ::
           && RowFor(st.progress, user, programId.value, id)
           && st.progress[id].isActive
           && forall other :: RowFor(st.progress, user, programId.value, other) ==> other == id
    ensures r.Success? ==>
      exists id ::
        && RowFor(st.progress, user, programId.value, id)
        && r.value == st.(progress := st.progress[id := st.progress[id].(isActive := false)])
  {
    if programId.None? || programId.value == 0 then Failure(BadRequest)
    else if programId.value !in st.programs then Failure(NotFound)
    else
      var ids := RowsFor(st, user, programId.value);
      SingletonIff(ids);
      var id :- GetOne(ids);
      var row := st.progress[id];
      if row.isActive then Success(st.(progress := st.progress[id := row.(isActive := false)]))
      else Failure(BadRequest)
  }

  /* ---------------------------------------------------------------------
     Properties
     --------------------------------------------------------------------- */

  /** A refused deactivation names its cause: no progress row is a 404; with
      one row per user and program, a row already off is a 400; two rows for
      the pair are an uncaught `MultipleObjectsReturned`. */
  lemma DeactivateRefusals(st: Store, user: int, program: int)
    requires program != 0 && program in st.programs
    ensures (forall id :: !RowFor(st.progress, user, program, id)) ==>
      Deactivate(st, user, Some(program)) == Failure(NotFound)
    ensures UniqueProgressRows(st.progress) &&
            (exists id :: RowFor(st.progress, user, program, id) && !st.progress[id].isActive) ==>
      Deactivate(st, user, Some(program)) == Failure(BadRequest)
    ensures (exists a, b :: RowFor(st.progress, user, program, a) && RowFor(st.progress, user, program, b) && a != b) ==>
      Deactivate(st, user, Some(program)) == Failure(ServerError)
  {
    var ids := RowsFor(st, user, program);
    SeveralIff(ids);
    if id :| RowFor(st.progress, user, program, id) {
      if UniqueProgressRows(st.progress) {
        assert ids == {id};
      }
    } else {
      assert ids == {};
    }
  }

  /** Deactivation flips exactly the user's row for that program, keeps the
      invariants, and leaves every other row, session and log as it was. */
  lemma DeactivateFlipsOneRow(st: Store, user: int, program: int)
    requires Valid(st)
    requires Deactivate(st, user, Some(program)).Success?
    ensures
      var st' := Deactivate(st, user, Some(program)).value;
      && Valid(st')
      && st'.sessions == st.sessions && st'.logs == st.logs && st'.programs == st.programs
      && st'.progress.Keys == st.progress.Keys
      && forall id :: id in st.progress ==>
           if RowFor(st.progress, user, program, id)
           then st.progress[id].isActive && st'.progress[id] == st.progress[id].(isActive := false)
           else st'.progress[id] == st.progress[id]
  {
    var st' := Deactivate(st, user, Some(program)).value;
    var id :| RowFor(st.progress, user, program, id)
      && st' == st.(progress := st.progress[id := st.progress[id].(isActive := false)]);
    assert RowsFor(st, user, program) == {id};
    forall u, a, b | ActiveRow(st'.progress, u, a) && ActiveRow(st'.progress, u, b)
      ensures a == b
    {
      assert ActiveRow(st.progress, u, a) && ActiveRow(st.progress, u, b);
    }
    forall u, p, a, b | RowFor(st'.progress, u, p, a) && RowFor(st'.progress, u, p, b)
      ensures a == b
    {
      assert RowFor(st.progress, u, p, a) && RowFor(st.progress, u, p, b);
    }
  }

  /** After a deactivation the user has no active program, so a second
      deactivation of the same program is refused. */
  lemma DeactivateClearsActiveProgram(st: Store, user: int, program: int)
    requires Valid(st)
    requires Deactivate(st, user, Some(program)).Success?
    ensures ActiveProgram(Deactivate(st, user, Some(program)).value, user) == Failure(NotFound)
    ensures Deactivate(Deactivate(st, user, Some(program)).value, user, Some(program)) == Failure(BadRequest)
  {
    var st' := Deactivate(st, user, Some(program)).value;
    var id :| RowFor(st.progress, user, program, id)
      && st' == st.(progress := st.progress[id := st.progress[id].(isActive := false)]);
    assert ActiveRow(st.progress, user, id);
    assert forall other :: !ActiveRow(st'.progress, user, other) by {
      forall other | ActiveRow(st'.progress, user, other)
        ensures false
      {
        assert ActiveRow(st.progress, user, other);
      }
    }
    DeactivateFlipsOneRow(st, user, program);
    DeactivateRefusals(st', user, program);
  }

  /** The program reported as active can always be deactivated, as long as
      its row points at an existing program. */
  lemma ActiveProgramCanBeDeactivated(st: Store, user: int)
    requires Valid(st)
    requires ActiveProgram(st, user).Success?
    ensures Deactivate(st, user, Some(ActiveProgram(st, user).value)).Success?
  {
    var program := ActiveProgram(st, user).value;
    var id :| ActiveRow(st.progress, user, id) && st.progress[id].program == program;
    assert RowFor(st.progress, user, program, id);
    assert RowsFor(st, user, program) == {id};
  }
}

=== FILE: sessions.dfy ===
/**
 The workout-session lifecycle: the guard of StartWorkoutSessionView, the
 check_active_session read, and EndWorkoutSession.
 */
module Sessions {
  import opened Wrappers
  import opened Journal
  import ProgramProgressViews

  /** Session `id` is running under a progress row of `user` that is the
      user's active program: the sessions the start guard looks for. */
  predicate Blocking(st: Store, user: int, id: int) {
    && id in st.sessions
    && st.sessions[id].active
    && st.sessions[id].progress in st.progress
    && st.progress[st.sessions[id].progress].user == user
    && st.progress[st.sessions[id].progress].isActive
  }

  /** Session `id` belongs to `user` and is running and not completed: the
      sessions check_active_session reports, whatever the program's state. */
  predicate Open(st: Store, user: int, id: int) {
    && id in st.sessions
    && st.sessions[id].active
    && !st.sessions[id].completed
    && st.sessions[id].progress in st.progress
    && st.progress[st.sessions[id].progress].user == user
  }

  /** The check made before a session is started: refused while the user
      has a running session under an active program. */
  function StartGuard(st: Store, user: int): (r: Result<(), Error>)
    ensures r.Failure? <==> exists id :: Blocking(st, user, id)
    ensures r.Failure? ==> r.error == BadRequest
  {
    var blocking := set id | id in st.sessions && Blocking(st, user, id);
    assert forall id :: Blocking(st, user, id) ==> id in blocking;
    if blocking != {} then Failure(BadRequest) else Success(())
  }

  /** The running session of `user` with the lowest id, if any. */
  function CheckActiveSession(st: Store, user: int): (r: Option<int>)
    ensures r.Some? <==> exists id :: Open(st, user, id)
    ensures r.Some? ==> Open(st, user, r.value)
    ensures r.Some? ==> forall id :: Open(st, user, id) ==> r.value <= id
  {
    var open := set id | id in st.sessions && Open(st, user, id);
    assert forall id :: Open(st, user, id) ==> id in open;
    if open == {} then None else Some(LeastId(open))
  }

  /** Marks session `sessionId` completed and no longer running. */
  function EndSession(st: Store, sessionId: int): (r: Result<Store, Error>)
    ensures sessionId !in st.sessions ==> r == Failure(NotFound)
    ensures sessionId in st.sessions && st.sessions[sessionId].completed ==> r == Failure(BadRequest)
    ensures r.Success? <==> sessionId in st.sessions && !st.sessions[sessionId].completed
    ensures r.Success? ==>
      var s := st.sessions[sessionId];
      r.value == st.(sessions := st.sessions[sessionId := s.(active := false, completed := true)])
  {
    if sessionId !in st.sessions then Failure(NotFound)
    else
      var s := st.sessions[sessionId];
      if !s.completed then
        Success(st.(sessions := st.sessions[sessionId := s.(active := false, completed := true)]))
      else Failure(BadRequest)
  }

  /* ---------------------------------------------------------------------
     Properties
     --------------------------------------------------------------------- */

  /** Ending is one-way: a second end of the same session is refused. */
  lemma EndTwiceRefused(st: Store, sessionId: int)
    requires EndSession(st, sessionId).Success?
    ensures EndSession(EndSession(st, sessionId).value, sessionId) == Failure(BadRequest)
  {
  }

  /** Ending keeps every invariant of the store, and the ended session is
      neither reported by check_active_session nor blocks a new start. */
  lemma EndKeepsValid(st: Store, sessionId: int, user: int)
    requires Valid(st)
    requires EndSession(st, sessionId).Success?
    ensures
      var st' := EndSession(st, sessionId).value;
      && Valid(st')
      && !Open(st', user, sessionId)
      && !Blocking(st', user, sessionId)
  {
  }

  /** Ending a session never creates a new obstacle: every session that
      blocks a start afterwards blocked it before. */
  lemma EndOnlyReleases(st: Store, sessionId: int, user: int)
    requires EndSession(st, sessionId).Success?
    ensures forall id :: Blocking(EndSession(st, sessionId).value, user, id) ==>
      Blocking(st, user, id) && id != sessionId
  {
  }

  /** Ending the only blocking session lets the user start again. */
  lemma EndingTheBlockerUnblocks(st: Store, user: int, sessionId: int)
    requires Blocking(st, user, sessionId)
    requires forall id :: Blocking(st, user, id) ==> id == sessionId
    requires SessionStatesValid(st.sessions)
    ensures StartGuard(st, user).Failure?
    ensures StartGuard(EndSession(st, sessionId).value, user) == Success(())
  {
    var st' := EndSession(st, sessionId).value;
    EndOnlyReleases(st, sessionId, user);
  }

  /** When sessions are never both running and completed, a refused start
      means check_active_session reports a session. */
  lemma RefusedStartIsVisible(st: Store, user: int)
    requires SessionStatesValid(st.sessions)
    requires StartGuard(st, user).Failure?
    ensures CheckActiveSession(st, user).Some?
  {
    var id :| Blocking(st, user, id);
    assert Open(st, user, id);
  }

  /** The converse fails: a session running under a program the user has
      since deactivated is reported by check_active_session, yet the start
      guard passes while the user follows another program. */
  lemma InactiveProgramSessionDoesNotBlock()
    ensures
      var st := Store(
        programs := {1, 2},
        progress := map[10 := ProgramProgress(7, 1, false), 11 := ProgramProgress(7, 2, true)],
        sessions := map[20 := WorkoutSession(10, 3, 0, true, false)],
        workoutExercises := map[],
        logs := map[]);
      && Valid(st)
      && ProgramProgressViews.ActiveProgram(st, 7) == Success(2)
      && CheckActiveSession(st, 7) == Some(20)
      && StartGuard(st, 7) == Success(())
  {
    var st := Store(
      programs := {1, 2},
      progress := map[10 := ProgramProgress(7, 1, false), 11 := ProgramProgress(7, 2, true)],
      sessions := map[20 := WorkoutSession(10, 3, 0, true, false)],
      workoutExercises := map[],
      logs := map[]);
    assert ActiveRow(st.progress, 7, 11);
    assert forall id :: ActiveRow(st.progress, 7, id) ==> id == 11;
    assert Open(st, 7, 20);
    assert forall id :: Blocking(st, 7, id) ==> id == 20;
    assert !Blocking(st, 7, 20);
  }
}

=== FILE: weekly_sessions.dfy ===
/**
 Weekly session counts for the chart of the last three months
 (WorkoutSessionsLast3MonthsView.process_sessions_by_week). Dates are day
 numbers; `weekOf` maps a day to its year-week key.
 */
module WeeklySessions {
  import opened OrderedDicts

  /** The days the bucket loop visits: `start`, a week later, and so on,
      while not past `end`. */
  function WeekSteps(start: int, end: int): (days: seq<int>)
    ensures |days| == if start > end then 0 else (end - start) / 7 + 1
    ensures forall i :: 0 <= i < |days| ==> days[i] == start + 7 * i
    decreases end - start
  {
    if start > end then [] else [start] + WeekSteps(start + 7, end)
  }

  function Weeks(weekOf: int -> int, days: seq<int>): (ws: seq<int>)
    ensures |ws| == |days|
    ensures forall i :: 0 <= i < |days| ==> ws[i] == weekOf(days[i])
  {
    seq(|days|, i requires 0 <= i < |days| => weekOf(days[i]))
  }

  /** The keys in the order the view assigns them: the week of each stepped
      day, then the week of `end`. */
  function CandidateWeeks(weekOf: int -> int, start: int, end: int): seq<int> {
    Weeks(weekOf, WeekSteps(start, end)) + [weekOf(end)]
  }

  /** The first loop: `data[week] = 0` for the week of every day visited. */
  function ZeroFill(d: Dict, weekOf: int -> int, days: seq<int>): Dict
    decreases |days|
  {
    if days == [] then d else ZeroFill(Put(d, weekOf(days[0]), 0), weekOf, days[1..])
  }

  /** The buckets before any session is counted: the stepped weeks, then the
      end week when the stepping missed it. */
  function EmptyBuckets(weekOf: int -> int, start: int, end: int): (d: Dict)
    ensures DistinctKeys(d) && AllZero(d)
    ensures Keys(d) == Dedup(CandidateWeeks(weekOf, start, end))
  {
    var steps := WeekSteps(start, end);
    var filled := ZeroFill([], weekOf, steps);
    ZeroFillSpec([], weekOf, steps);
    EndWeekBucket(filled, Weeks(weekOf, steps), weekOf(end));
    if weekOf(end) in Keys(filled) then filled else filled + [(weekOf(end), 0)]
  }

  /** `data[week] += 1` when the week is a bucket; otherwise nothing. */
  function Bump(d: Dict, week: int): (r: Dict)
    ensures Keys(r) == Keys(d)
    ensures DistinctKeys(d) ==> DistinctKeys(r)
    ensures DistinctKeys(d) ==>
      forall i :: 0 <= i < |d| ==> r[i] == (if d[i].0 == week then (week, d[i].1 + 1) else d[i])
  {
    if week in Keys(d) then
      var n := Get(d, week);
      assert DistinctKeys(d) ==> forall i :: 0 <= i < |d| && d[i].0 == week ==> d[i].1 == n;
      Put(d, week, n + 1)
    else d
  }

  /** The counting loop over the sessions' days, in query order. */
  function CountInto(d: Dict, weekOf: int -> int, days: seq<int>): (r: Dict)
    ensures DistinctKeys(d) ==>
      && Keys(r) == Keys(d) && DistinctKeys(r)
      && forall i :: 0 <= i < |d| ==> r[i].1 == d[i].1 + Occurrences(weekOf, days, d[i].0)
    decreases |days|
  {
    if days == [] then d else CountInto(Bump(d, weekOf(days[0])), weekOf, days[1..])
  }

  /** The chart data: one (week, sessions) entry per bucket. The keys are
      the generated weeks in the order first generated, and each bucket
      holds the number of sessions in its week. */
  function WeeklySessionCounts(weekOf: int -> int, start: int, end: int, sessionDays: seq<int>): (r: Dict)
    ensures DistinctKeys(r)
    ensures Keys(r) == Dedup(CandidateWeeks(weekOf, start, end))
    ensures forall i :: 0 <= i < |r| ==> r[i].1 == Occurrences(weekOf, sessionDays, r[i].0)
  {
    CountInto(EmptyBuckets(weekOf, start, end), weekOf, sessionDays)
  }

  /* ---------------------------------------------------------------------
     Reference definitions
     --------------------------------------------------------------------- */

  /** How many of `days` fall in week `week`. */
  function Occurrences(weekOf: int -> int, days: seq<int>, week: int): nat
    decreases |days|
  {
    if days == [] then 0
    else (if weekOf(days[0]) == week then 1 else 0) + Occurrences(weekOf, days[1..], week)
  }

  /** How many of `days` fall in one of the weeks `weeks`. */
  function Covered(weekOf: int -> int, days: seq<int>, weeks: seq<int>): nat
    decreases |days|
  {
    if days == [] then 0
    else (if weekOf(days[0]) in weeks then 1 else 0) + Covered(weekOf, days[1..], weeks)
  }

  /* ---------------------------------------------------------------------
     Properties
     --------------------------------------------------------------------- */

  lemma {:induction false} ZeroFillSpec(d: Dict, weekOf: int -> int, days: seq<int>)
    requires DistinctKeys(d) && AllZero(d)
    ensures var r := ZeroFill(d, weekOf, days);
      && DistinctKeys(r) && AllZero(r)
      && Keys(r) == DedupInto(Keys(d), Weeks(weekOf, days))
    decreases |days|
  {
    if days != [] {
      var d' := Put(d, weekOf(days[0]), 0);
      PutKeysDedup(d, weekOf(days[0]), 0);
      ZeroFillSpec(d', weekOf, days[1..]);
      assert Weeks(weekOf, days)[1..] == Weeks(weekOf, days[1..]);
    }
  }

  /** The end week's bucket, added after the stepped ones when missing. */
  lemma EndWeekBucket(d: Dict, ws: seq<int>, e: int)
    requires DistinctKeys(d) && AllZero(d) && Keys(d) == Dedup(ws)
    ensures var d' := if e in Keys(d) then d else d + [(e, 0)];
      && DistinctKeys(d') && AllZero(d') && Keys(d') == Dedup(ws + [e])
  {
    DedupIntoSnoc([], ws, e);
    if e !in Keys(d) {
      AppendNewKey(d, e, 0);
    }
  }

  /** Every generated week key, the end week's included, is a bucket. */
  lemma EmptyBucketsCover(weekOf: int -> int, start: int, end: int)
    ensures var d := EmptyBuckets(weekOf, start, end);
      && weekOf(end) in Keys(d)
      && forall i :: 0 <= i && start + 7 * i <= end ==> weekOf(start + 7 * i) in Keys(d)
  {
    var steps := WeekSteps(start, end);
    var candidates := CandidateWeeks(weekOf, start, end);
    var keys := Keys(EmptyBuckets(weekOf, start, end));
    assert forall x :: x in keys <==> x in candidates;
    assert candidates[|candidates| - 1] == weekOf(end);
    forall i | 0 <= i && start + 7 * i <= end
      ensures weekOf(start + 7 * i) in keys
    {
      assert i < |steps|;
      assert candidates[i] == weekOf(start + 7 * i);
    }
  }

  lemma BumpTotal(d: Dict, week: int)
    requires DistinctKeys(d)
    ensures Total(Bump(d, week)) == Total(d) + (if week in Keys(d) then 1 else 0)
  {
    if week in Keys(d) {
      PutAddTotal(d, week, 1);
    }
  }

  lemma {:induction false} CountIntoTotal(d: Dict, weekOf: int -> int, days: seq<int>)
    requires DistinctKeys(d)
    ensures Total(CountInto(d, weekOf, days)) == Total(d) + Covered(weekOf, days, Keys(d))
    decreases |days|
  {
    if days != [] {
      var d' := Bump(d, weekOf(days[0]));
      BumpTotal(d, weekOf(days[0]));
      CountIntoTotal(d', weekOf, days[1..]);
    }
  }

  lemma {:induction false} CoveredAtMostAll(weekOf: int -> int, days: seq<int>, weeks: seq<int>)
    ensures Covered(weekOf, days, weeks) <= |days|
    decreases |days|
  {
    if days != [] {
      CoveredAtMostAll(weekOf, days[1..], weeks);
    }
  }

  /** A session whose week is no bucket is counted nowhere: the counts add
      up to the sessions whose week is a bucket, at most all of them. */
  lemma WeeklyTotalAtMostSessions(weekOf: int -> int, start: int, end: int, sessionDays: seq<int>)
    ensures var r := WeeklySessionCounts(weekOf, start, end, sessionDays);
      && Total(r) == Covered(weekOf, sessionDays, Keys(r))
      && Total(r) <= |sessionDays|
  {
    CountedTotal(EmptyBuckets(weekOf, start, end), weekOf, sessionDays);
  }

  lemma CountedTotal(d: Dict, weekOf: int -> int, days: seq<int>)
    requires DistinctKeys(d) && AllZero(d)
    ensures var r := CountInto(d, weekOf, days);
      && Total(r) == Covered(weekOf, days, Keys(r))
      && Total(r) <= |days|
  {
    CountIntoTotal(d, weekOf, days);
    ZeroTotal(d);
    CoveredAtMostAll(weekOf, days, Keys(d));
  }
}

=== FILE: wrappers.dfy ===
/** Failure-compatible wrappers shared by every module of the journal model. */
module Wrappers {

  /** A value that may be absent: a nullable column or an optional request field. */
  datatype Option<+T> = None | Some(value: T)

  /** Either the value a view produces or the error response it returns. */
  datatype Result<+T, +E> = Success(value: T) | Failure(error: E) {

    predicate IsFailure() {
      Failure?
    }

    function PropagateFailure<U>(): Result<U, E>
      requires Failure?
    {
      Failure(error)
    }

    function Extract(): T
      requires Success?
    {
      value
    }
  }
}
